=== FILE: README.md ===
# College Buddy retrieval pipeline — a Dafny model

This project models the deterministic core of the College Buddy question-answering
pipeline in `app.py`. It is the data shaping that happens between the calls to the chat model,
the embedding service and the two vector indexes:

- **Intent identification** (`identify_intents`): the stripped reply of the chat model is the single intent, and a blank reply means no intent.
- **Keyword expansion** (`generate_keywords_per_intent`, `extract_keywords_from_response`): a completion is stripped, split on commas, and every piece is stripped.
- **Content context** (`query_pinecone`): one piece per content match, which is its `chunk_text` or `"Content from <file_name or 'unknown file'>"`. The pieces are joined with single spaces.
- **Multi-intent retrieval** (`query_for_multiple_intents`): intents are walked in dict order. For each one, the metadata matches whose id was already kept for an earlier intent are dropped, so the first intent wins.
- **Budgeted answer** (`generate_multi_intent_answer`): the per-intent blocks are joined by newlines and encoded. The token list is cut to its first 4000 tokens and decoded, then sent with the query to the chat model. The stripped reply is the answer.
- **Two-pass refinement** (`get_answer`): keywords are mined from the draft answer and united with the first intent's keywords. They are re-queried under a single key, the query itself, and answered again.

Every outside service is an uninterpreted function, gathered in `Externals.Services`:
- the chat model, over a `ChatRequest`. `Externals.Messages` records the exact prompts of the source for the reader; no contract depends on it;
- the embedding-plus-index query for each index;
- the tokenizer's `encode` and `decode`;
- Python's rendering of a list of matches.

Every property below holds for all such services.

Modules, in dependency order:
- `Wrappers`: `Option` and `Result`.
- `Seqs`: sets of sequences, subsequences, and first-occurrence `Distinct`.
- `Text`: Python's `strip`, `split` and `join`.
- `Dict`: an insertion-ordered `dict`.
- `Externals`: matches, chat requests and the services.
- `Keywords`, `Retrieval`, `Assembly` and `Pipeline`: the pipeline stages.

## Model

| member | source | states |
|---|---|---|
| Text.Strip | app.py:66 | `strip()` leaves no whitespace (Python's `isspace` set) at either end and never lengthens the text |
| Text.StripParts | app.py:66 | the text is its stripped form with a run of whitespace on each side |
| Text.StripOfFramed | app.py:66 | conversely, whatever sits between two whitespace runs and has no edge whitespace is exactly what `strip()` returns |
| Text.StripBlank | app.py:66-67 | `strip()` gives the empty string exactly for blank texts |
| Text.StripIdempotent | app.py:80-81 | stripping an already stripped text changes nothing |
| Text.Join | app.py:55 | `sep.join(xs)`: the pieces in order with the separator between neighbours; a non-empty join starts with its first piece |
| Text.JoinEnds | app.py:55 | joining no pieces gives `""`; a non-empty join ends with its last piece |
| Text.Split | app.py:80 | `split(',')` gives one piece more than there are commas, and no piece holds a comma |
| Text.JoinSplit | app.py:80 | joining the pieces of a split with the separator restores the text |
| Text.SplitJoin | app.py:80 | splitting a join of separator-free pieces restores the pieces |
| Text.StripThenSplit | app.py:80-81 | stripping the completion before splitting changes none of the stripped pieces |
| Keywords.ParseKeywords | app.py:80-81 | k commas give k+1 keywords, each without edge whitespace or comma; the result is `[""]` exactly when the completion is blank |
| Keywords.KeywordsRoundTrip | app.py:80-81 | parsing is the inverse of joining with `","` for keywords with no comma and no edge whitespace |
| Keywords.ParseKeywordsPieces | app.py:123-124 | the response keywords are the comma pieces of the raw completion, each stripped |
| Keywords.ParseKeywordsExample | app.py:123-124 | `"a, b ,c"` parses to `["a", "b", "c"]` |
| Keywords.IdentifyIntents | app.py:57-67 | `identify_intents` returns at most one intent: none exactly when the chat reply is blank, otherwise the stripped reply |
| Keywords.KeywordsFor | app.py:72-81 | the keywords for one intent are the comma pieces of the raw completion, each stripped, one more than there are commas |
| Keywords.ExtractKeywordsFromResponse | app.py:114-124 | `extract_keywords_from_response` gives the comma pieces of the raw completion, each stripped, one more than there are commas |
| Keywords.IntentsOf | app.py:66-67 | at most one intent; none exactly when the completion is blank; never the empty string; otherwise the stripped completion |
| Keywords.GenerateKeywordsPerIntent | app.py:69-82 | the dict's keys are the distinct intents in first-occurrence order; each intent maps to the keywords generated for it; no other key is present |
| Dict.Put | app.py:81 | assignment keeps an existing key's place or appends a new key, stores the value, and leaves every other key's value alone |
| Dict.Lookup | app.py:132 | a lookup fails exactly for a key that is absent |
| Retrieval.ContentPiece | app.py:51-54 | a match contributes its `chunk_text` when present, otherwise `"Content from "` followed by `metadata.get('file_name', 'unknown file')` |
| Retrieval.ContentContext | app.py:55 | the pieces joined by single spaces: `""` for no match, and starting with the first match's piece otherwise |
| Retrieval.ContentContextEmpty | app.py:49-55 | zero content matches give the empty context |
| Retrieval.QueryPinecone | app.py:46-55 | the loop's result is the space-join of one piece per content match, in match order |
| Retrieval.ContentContextSnoc | app.py:49-55 | each further match adds exactly one space and its piece at the end of the context |
| Retrieval.ContentContextPieces | app.py:55 | when no piece contains a space, splitting the context on spaces gives back one piece per match |
| Retrieval.KeptMatches | app.py:89 | no kept metadata match has an id already seen |
| Retrieval.KeptMatchesFilter | app.py:89 | the kept matches are an order-preserving subsequence of the raw ones; a match with an unseen id keeps every one of its occurrences |
| Retrieval.KeptMatchesAllFresh | app.py:89 | with no id seen before nothing is dropped, not even a repeat within one intent's own results |
| Retrieval.QueryForIntents | app.py:84-96 | one entry per input intent, in input order; no entry keeps an id from the matches kept before the call |
| Retrieval.QueryForMultipleIntents | app.py:84-96 | the result's keys are the input's keys, in the input's order |
| Retrieval.QueryForIntentsEntry | app.py:87-95 | entry i holds the raw metadata matches for the space-joined keywords, minus the ids kept for entries before it, and the content context for the same keywords |
| Retrieval.CrossIntentDedup | app.py:84-90 | matches kept for two different intents never share an id |
| Retrieval.FirstIntentWins | app.py:88-90 | a match retrieved for the first intent is kept there, and its id appears under no later intent |
| Assembly.Truncate | app.py:100-102 | `tokens[:4000]` is a prefix of at most 4000 tokens that is the whole list when it fits and exactly 4000 tokens otherwise |
| Assembly.TruncateIdempotent | app.py:102 | truncating twice to the same budget is truncating once |
| Assembly.TruncateConcat | app.py:102 | the cut falls at the tail: a later part only keeps the room an earlier part leaves |
| Assembly.RenderIntent | app.py:99 | an intent's block opens with `Intent: <intent>` on its own line and closes with `Pinecone Context: <context>` |
| Assembly.AssembleContext | app.py:99 | `""` without intents, opening with the first intent's block and closing with the last's |
| Assembly.AssembleContextSingle | app.py:99 | the context of a single intent is exactly that intent's block |
| Assembly.AssembleContextSnoc | app.py:99 | each further intent adds one newline and its block at the end, so the blocks appear in intent order separated by newlines |
| Assembly.ContextTokens | app.py:99-102 | the tokens that reach the chat model are a prefix of the encoded context, at most 4000 long, all of it when it fits |
| Assembly.GenerateMultiIntentAnswer | app.py:98-112 | the answer has no edge whitespace |
| Assembly.AnswerSeesOnlyBudget | app.py:102-108 | two contexts that agree on their first 4000 tokens get the same answer |
| Seqs.Distinct | app.py:132 | `list(set(xs))` lists the same elements as `xs`, each once |
| Pipeline.FirstPass | app.py:127-131 | the first pass has at most one intent, blank-iff-empty; one keyword entry per intent; its retrieval entries are `query_for_multiple_intents` of that keyword dict, its draft is the answer over them (stripped), and its response keywords are mined from that draft |
| Pipeline.Refine | app.py:132-135 | the refinement fails with IndexError on no intent and with KeyError on a missing key. Otherwise its keywords are duplicate-free and their set is the union of the intent's keywords and the response keywords. Its retrieval data is `query_for_multiple_intents({query: all_keywords})` (one entry keyed by the query, every raw metadata match kept, with its content context), and the final answer is synthesised over that data |
| Pipeline.GetAnswer | app.py:126-135 | `get_answer` succeeds exactly when the intent completion is not blank, and otherwise fails with IndexError |
| Pipeline.RefinementKeywords | app.py:132 | every keyword of the intent and of the draft answer is in the refined keywords, and nothing else is |

## Left out

- The Flask routes, the HTML template and the `related_documents` projection of `/chat` are web plumbing and are not modelled.
- Client and index set-up at start-up is not modelled. It reads the environment, talks to the network and creates indexes.
- The OpenAI chat and embedding calls and the Pinecone queries are not modelled. They are the uninterpreted `Services` fields. Embedding vectors (floating point) never appear, and match scores are passed through untouched.
- Every service is a mathematical function, so two identical requests get the same reply. The model therefore does not cover a chat model that answers the same prompt differently on a repeated intent.
- The tokenizer's internals are not modelled. `encode` and `decode` are free, and no `decode(encode(x)) == x` round trip is assumed. `encode` is total, so the error the tokenizer raises at app.py:102 on text that looks like a special token (such as `<|endoftext|>` inside a chunk or an intent) is not modelled.
- Assembly.ContextTokens: bounds the token list that is decoded, not the decoded text. The number of tokens of that text depends on the tokenizer, which is not modelled.
- Python's `repr` of the metadata list inside the context string is the free `render` service. Its format belongs to the language runtime.
- Seqs.Distinct: Python leaves the order of `list(set(...))` open. The model picks first-occurrence order, and every contract about the refined keywords speaks only of their set and their distinctness.
- Match metadata values are modelled as strings. The source only reads `chunk_text` and `file_name` from them and puts them in text.
- Uncaught upstream errors (network failures, malformed replies, the tokenizer's special-token error) are not modelled. The only failures modelled are the IndexError of `intents[0]` at app.py:132 and the KeyError of the dict lookup that `Pipeline.Refine` alone could raise. `Pipeline.GetAnswer` proves that this KeyError never occurs in `get_answer`.
- Retrieval.CrossIntentDedup: app.py:89 filters only against ids kept for earlier intents. So no id repeats across intents, but a match repeated within one intent's own results survives (`KeptMatchesAllFresh`).

=== FILE: assembly.dfy ===
/**
 * Answer synthesis: the per-intent results are rendered into one context string,
 * which is cut to a token budget before it is sent with the query to the chat model.
 */
module Assembly {
  import opened Text
  import opened Externals
  import opened Retrieval

  /** The most tokens of context sent to the chat model. */
  const MaxContextTokens: nat := 4000

  /** `tokens[:limit]`: the first `limit` tokens, or all of them when there are fewer. */
  function Truncate<T>(tokens: seq<T>, limit: nat): (r: seq<T>)
    ensures |r| <= limit
    ensures r <= tokens
    ensures |r| == limit || r == tokens
  {
    if |tokens| <= limit then tokens else tokens[..limit]
  }

  /** Truncating twice to the same budget is truncating once. */
  lemma TruncateIdempotent<T>(tokens: seq<T>, limit: nat)
    ensures Truncate(Truncate(tokens, limit), limit) == Truncate(tokens, limit)
  {
  }

  /**
   * The cut is taken from the tail: of two concatenated parts, the second is only kept
   * in the room the first leaves, and not at all once the first fills the budget.
   */
  lemma TruncateConcat<T>(a: seq<T>, b: seq<T>, limit: nat)
    ensures Truncate(a + b, limit) ==
      if |a| >= limit then Truncate(a, limit) else a + Truncate(b, limit - |a|)
  {
    if |a| < limit && |a + b| > limit {
      assert (a + b)[..limit] == a + b[..limit - |a|];
    }
  }

  /**
   * The labelled block of the context that describes one intent: it opens with the intent's
   * line and closes with its content context.
   */
  function RenderIntent(intent: string, res: IntentResult, svc: Services): (r: string)
    ensures "Intent: " + intent + "\n" <= r
    ensures EndsWith(r, "\nPinecone Context: " + res.pineconeContext)
  {
    var head := "Intent: " + intent + "\n";
    var tail := "\nPinecone Context: " + res.pineconeContext;
    var r := head + ("Metadata Results: " + svc.render(res.metadataResults)) + tail;
    assert r[|r| - |tail|..] == tail;
    r
  }

  /** One rendered block per intent, in order. */
  function Blocks(data: seq<(string, IntentResult)>, svc: Services): (bs: seq<string>)
    ensures |bs| == |data|
    ensures forall i :: 0 <= i < |data| ==> bs[i] == RenderIntent(data[i].0, data[i].1, svc)
  {
    seq(|data|, i requires 0 <= i < |data| => RenderIntent(data[i].0, data[i].1, svc))
  }

  /**
   * The context before truncation: one block per intent, in order, separated by newlines;
   * empty without intents, opening with the first intent's block and closing with the last's.
   */
  function AssembleContext(data: seq<(string, IntentResult)>, svc: Services): (r: string)
    ensures data == [] ==> r == ""
    ensures |data| >= 1 ==> RenderIntent(data[0].0, data[0].1, svc) <= r
    ensures |data| >= 1 ==> EndsWith(r, RenderIntent(data[|data| - 1].0, data[|data| - 1].1, svc))
  {
    JoinEnds(Blocks(data, svc), "\n");
    Join(Blocks(data, svc), "\n")
  }

  /** The context of a single intent is that intent's block alone. */
  lemma AssembleContextSingle(x: (string, IntentResult), svc: Services)
    ensures AssembleContext([x], svc) == RenderIntent(x.0, x.1, svc)
  {
  }

  /** Each further intent adds a newline and its block at the end of the context. */
  lemma AssembleContextSnoc(data: seq<(string, IntentResult)>, x: (string, IntentResult), svc: Services)
    requires |data| >= 1
    ensures AssembleContext(data + [x], svc) == AssembleContext(data, svc) + "\n" + RenderIntent(x.0, x.1, svc)
  {
    assert Blocks(data + [x], svc) == Blocks(data, svc) + [RenderIntent(x.0, x.1, svc)];
    JoinSnoc(Blocks(data, svc), RenderIntent(x.0, x.1, svc), "\n");
  }

  /**
   * The tokens of context that reach the chat model: a prefix of the encoded context of at
   * most `MaxContextTokens` tokens, the whole of it when it already fits.
   */
  function ContextTokens(data: seq<(string, IntentResult)>, svc: Services): (t: seq<int>)
    ensures |t| <= MaxContextTokens
    ensures t <= svc.encode(AssembleContext(data, svc))
    ensures |svc.encode(AssembleContext(data, svc))| <= MaxContextTokens ==> t == svc.encode(AssembleContext(data, svc))
    ensures |svc.encode(AssembleContext(data, svc))| >= MaxContextTokens ==> |t| == MaxContextTokens
  {
    Truncate(svc.encode(AssembleContext(data, svc)), MaxContextTokens)
  }

  /** `generate_multi_intent_answer(query, intent_data)`: the stripped reply of the chat model. */
  function GenerateMultiIntentAnswer(query: string, data: seq<(string, IntentResult)>, svc: Services)
    : (answer: string)
    ensures NoEdgeSpace(answer)
  {
    var context := svc.decode(ContextTokens(data, svc));
    Strip(svc.chat(AnswerRequest(query, context)))
  }

  /** Two runs whose contexts agree on the tokens within budget get the same answer: nothing past the budget reaches the model. */
  lemma AnswerSeesOnlyBudget(query: string, d1: seq<(string, IntentResult)>, d2: seq<(string, IntentResult)>, svc: Services)
    requires Truncate(svc.encode(AssembleContext(d1, svc)), MaxContextTokens)
          == Truncate(svc.encode(AssembleContext(d2, svc)), MaxContextTokens)
    ensures GenerateMultiIntentAnswer(query, d1, svc) == GenerateMultiIntentAnswer(query, d2, svc)
  {
  }
}

=== FILE: dict.dfy ===
/**
 * A Python `dict` as an association list in insertion order: assigning to a key
 * that is already present replaces its value in place; a new key goes at the end.
 */
module Dict {
  import opened Wrappers

  type Dict<K, V> = seq<(K, V)>

  function Keys<K, V>(d: Dict<K, V>): (ks: seq<K>)
    ensures |ks| == |d|
    ensures forall i :: 0 <= i < |d| ==> ks[i] == d[i].0
    decreases |d|
  {
    if |d| == 0 then [] else [d[0].0] + Keys(d[1..])
  }

  /** `d.get(k)`: the value stored under `k`, if any. */
  function Lookup<K(==), V>(d: Dict<K, V>, k: K): (r: Option<V>)
    ensures r.None? <==> k !in Keys(d)
    decreases |d|
  {
    if |d| == 0 then None
    else if d[0].0 == k then Some(d[0].1)
    else
      assert Keys(d[1..]) == Keys(d)[1..];
      Lookup(d[1..], k)
  }

  /** `d[k] = v`. */
  function Put<K(==,!new), V>(d: Dict<K, V>, k: K, v: V): (r: Dict<K, V>)
    ensures Keys(r) == if k in Keys(d) then Keys(d) else Keys(d) + [k]
    ensures Lookup(r, k) == Some(v)
    ensures forall k' :: k' != k ==> Lookup(r, k') == Lookup(d, k')
    decreases |d|
  {
    if |d| == 0 then [(k, v)]
    else if d[0].0 == k then [(k, v)] + d[1..]
    else
      var rest := Put(d[1..], k, v);
      var r := [d[0]] + rest;
      assert r[1..] == rest;
      r
  }
}

=== FILE: externals.dfy ===
/**
 * The outside services the pipeline calls, as uninterpreted inputs. Nothing is
 * assumed about what they return: every property of the model holds for all of them.
 */
module Externals {

  /**
   * One match returned by a similarity query against a vector index: its id, its
   * similarity score (passed through, never inspected) and its metadata fields.
   */
  datatype Match = Match(id: string, score: real, metadata: map<string, string>)

  /** The four kinds of chat completion the pipeline requests, with what each one is about. */
  datatype ChatRequest =
    | IntentRequest(query: string)
    | KeywordRequest(intent: string)
    | ResponseKeywordRequest(response: string)
    | AnswerRequest(question: string, context: string)

  /** The (system message, user message) pair sent to the chat model for each request. */
  function Messages(req: ChatRequest): (string, string) {
    match req
    case IntentRequest(query) =>
      ("You are an intent identification assistant. Identify and provide only the primary intent or question within the given query.",
       "Identify the main intent or question within this query. Provide only one primary intent: " + query)
    case KeywordRequest(intent) =>
      ("You are a keyword extraction assistant. Generate relevant keywords or phrases for the given intent.",
       "Generate 5-10 relevant keywords or phrases for this intent, separated by commas: " + intent)
    case ResponseKeywordRequest(response) =>
      ("You are a keyword extraction assistant. Extract key terms or phrases from the given text.",
       "Extract 5-10 key terms or phrases from this text, separated by commas: " + response)
    case AnswerRequest(question, context) =>
      ("You are College Buddy, an AI assistant designed to help students with their academic queries...",
       "Query: " + question + "\n\nContext: " + context)
  }

  /** The number of matches requested from each index query. */
  const TopK: nat := 5

  /**
   * - chat: the raw reply text of the chat model to the messages `Messages(req)` of a request.
   *   Any chat model over message pairs gives such a function by composing with `Messages`,
   *   so what holds for every `chat` holds for the real one.
   * - searchMetadata / searchContent: embed the text, then query the metadata index or the
   *   content index for the given number of nearest matches.
   * - encode / decode: the tokenizer.
   * - render: Python's rendering of a list of matches inside an f-string.
   */
  datatype Services = Services(
    chat: ChatRequest -> string,
    searchMetadata: (string, nat) -> seq<Match>,
    searchContent: (string, nat) -> seq<Match>,
    encode: string -> seq<int>,
    decode: seq<int> -> string,
    render: seq<Match> -> string)
}

=== FILE: keywords.dfy ===
/**
 * Intent identification and keyword expansion: the completion text is parsed by
 * stripping it, splitting it on commas and stripping every piece.
 */
module Keywords {
  import opened Wrappers
  import opened Text
  import opened Seqs
  import opened Dict
  import opened Externals

  /**
   * `[k.strip() for k in completion.strip().split(',')]`: one keyword more than there
   * are commas, none with whitespace at its edges; a blank completion gives `[""]`.
   */
  function ParseKeywords(completion: string): (r: seq<string>)
    ensures |r| == Count(completion, ',') + 1
    ensures forall i :: 0 <= i < |r| ==> NoEdgeSpace(r[i]) && ',' !in r[i]
    ensures r == [""] <==> AllSpace(completion)
  {
    var t := Strip(completion);
    var pieces := Split(t, ',');
    StripKeepsCount(completion, ',');
    var r := StripEach(pieces);
    forall i | 0 <= i < |r|
      ensures ',' !in r[i]
    {
      StripSubstring(pieces[i], ',');
    }
    BlankCompletion(completion);
    r
  }

  lemma BlankCompletion(completion: string)
    ensures StripEach(Split(Strip(completion), ',')) == [""] <==> AllSpace(completion)
  {
    var t := Strip(completion);
    var r := StripEach(Split(t, ','));
    StripBlank(completion);
    if r == [""] {
      SplitSingle(t, ',');
      StripIdempotent(completion);
      assert r[0] == Strip(t) == t;
    }
    if AllSpace(completion) {
      assert t == "";
      assert Split(t, ',') == [""];
      assert Strip("") == "";
      assert r == [""];
    }
  }

  /** `identify_intents` once the completion is known: the stripped reply as the single intent, or no intent when it is blank. */
  function IntentsOf(completion: string): (r: seq<string>)
    ensures |r| <= 1
    ensures r == [] <==> AllSpace(completion)
    ensures "" !in r
    ensures forall i :: 0 <= i < |r| ==> r[i] == Strip(completion)
  {
    var intent := Strip(completion);
    StripBlank(completion);
    if intent == "" then [] else [intent]
  }

  /** The text the intent completion returns for a query. */
  function IntentCompletion(query: string, svc: Services): string {
    svc.chat(IntentRequest(query))
  }

  /** `identify_intents(query)`: at most one intent, the stripped reply, and none for a blank reply. */
  function IdentifyIntents(query: string, svc: Services): (r: seq<string>)
    ensures |r| <= 1
    ensures r == [] <==> AllSpace(IntentCompletion(query, svc))
    ensures forall i :: 0 <= i < |r| ==> r[i] == Strip(IntentCompletion(query, svc))
  {
    IntentsOf(IntentCompletion(query, svc))
  }

  /**
   * The keywords generated for one intent: the comma pieces of the raw completion, each
   * stripped, one more than there are commas.
   */
  function KeywordsFor(intent: string, svc: Services): (r: seq<string>)
    ensures r == StripEach(Split(svc.chat(KeywordRequest(intent)), ','))
    ensures |r| == Count(svc.chat(KeywordRequest(intent)), ',') + 1
  {
    var completion := svc.chat(KeywordRequest(intent));
    ParseKeywordsPieces(completion);
    ParseKeywords(completion)
  }

  /**
   * `extract_keywords_from_response(response)`: the comma pieces of the raw completion,
   * each stripped, one more than there are commas.
   */
  function ExtractKeywordsFromResponse(response: string, svc: Services): (r: seq<string>)
    ensures r == StripEach(Split(svc.chat(ResponseKeywordRequest(response)), ','))
    ensures |r| == Count(svc.chat(ResponseKeywordRequest(response)), ',') + 1
  {
    var completion := svc.chat(ResponseKeywordRequest(response));
    ParseKeywordsPieces(completion);
    ParseKeywords(completion)
  }

  /**
   * `generate_keywords_per_intent(intents)`: a dict with one key per distinct intent, in
   * order of first occurrence, each mapped to the keywords generated for it.
   */
  function GenerateKeywordsPerIntent(intents: seq<string>, svc: Services): (d: Dict<string, seq<string>>)
    ensures Keys(d) == Distinct(intents)
    ensures forall k :: k in intents ==> Lookup(d, k) == Some(KeywordsFor(k, svc))
    ensures forall k :: Lookup(d, k).Some? <==> k in intents
    decreases |intents|
  {
    if |intents| == 0 then []
    else
      var n := |intents| - 1;
      var d := GenerateKeywordsPerIntent(intents[..n], svc);
      assert intents == intents[..n] + [intents[n]];
      Put(d, intents[n], KeywordsFor(intents[n], svc))
  }

  /**
   * Keywords that carry no comma and no edge whitespace come back unchanged from their
   * comma-joined text: parsing is the inverse of joining with ",".
   */
  lemma KeywordsRoundTrip(ks: seq<string>)
    requires |ks| >= 1
    requires forall i :: 0 <= i < |ks| ==> NoEdgeSpace(ks[i]) && ',' !in ks[i]
    ensures ParseKeywords(Join(ks, ",")) == ks
  {
    var j := Join(ks, ",");
    assert "," == [','];
    JoinNoEdgeSpace(ks, ",");
    StripNoEdge(j);
    SplitJoin(ks, ',');
    StripEachNoEdge(ks);
    assert ParseKeywords(j) == StripEach(Split(Strip(j), ','));
  }

  /**
   * Stripping the whole completion before splitting it changes nothing: the keywords are
   * the comma-separated pieces of the raw completion, each stripped.
   */
  lemma ParseKeywordsPieces(completion: string)
    ensures ParseKeywords(completion) == StripEach(Split(completion, ','))
  {
    StripThenSplit(completion, ',');
  }

  lemma ExampleSplit()
    ensures Split("a, b ,c", ',') == ["a", " b ", "c"]
  {
    assert "a, b ,c" == "a" + [','] + " b ,c";
    SplitFirstPiece("a", ',', " b ,c");
    assert " b ,c" == " b " + [','] + "c";
    SplitFirstPiece(" b ", ',', "c");
    SplitNoSeparator("c", ',');
  }

  lemma ExampleStrip()
    ensures StripEach(["a", " b ", "c"]) == ["a", "b", "c"]
  {
    StripNoEdge("a");
    StripNoEdge("c");
    assert " " + ("b" + " ") == " b ";
    StripOfFramed(" ", "b", " ");
  }

  /** A completion with stray spaces around its commas gives the bare keywords, with no empty piece. */
  lemma ParseKeywordsExample()
    ensures ParseKeywords("a, b ,c") == ["a", "b", "c"]
  {
    ExampleSplit();
    ExampleStrip();
    ParseKeywordsPieces("a, b ,c");
  }
}

=== FILE: pipeline.dfy ===
/**
 * The two-pass answer: a draft from the identified intent, then a refinement that
 * re-queries with the union of the intent's keywords and keywords mined from the draft.
 */
module Pipeline {
  import opened Wrappers
  import opened Text
  import opened Seqs
  import opened Dict
  import opened Externals
  import opened Keywords
  import opened Retrieval
  import opened Assembly

  /** What `get_answer` raises: indexing an empty intent list, or a dict lookup of a missing key. */
  datatype PipelineError = IndexError | KeyError

  /** The state after the first pass. */
  datatype Draft = Draft(
    intents: seq<string>,
    intentKeywords: Dict<string, seq<string>>,
    intentData: seq<(string, IntentResult)>,
    initialAnswer: string,
    responseKeywords: seq<string>)

  /** What `get_answer` returns: the final answer, the refined retrieval data and the refinement keywords. */
  datatype Answer = Answer(finalAnswer: string, intentData: seq<(string, IntentResult)>, allKeywords: seq<string>)

  /** The first pass of `get_answer`: intents, their keywords, their retrieval, the draft answer and the keywords mined from it. */
  function FirstPass(query: string, svc: Services): (d: Draft)
    ensures |d.intents| <= 1
    ensures d.intents == [] <==> AllSpace(IntentCompletion(query, svc))
    ensures forall i :: 0 <= i < |d.intents| ==> d.intents[i] == Strip(IntentCompletion(query, svc))
    ensures Keys(d.intentKeywords) == d.intents
    ensures forall k :: k in d.intents ==> Lookup(d.intentKeywords, k) == Some(KeywordsFor(k, svc))
    ensures Keys(d.intentData) == d.intents
    ensures d.intentData == QueryForMultipleIntents(d.intentKeywords, svc)
    ensures d.initialAnswer == GenerateMultiIntentAnswer(query, d.intentData, svc)
    ensures d.responseKeywords == ExtractKeywordsFromResponse(d.initialAnswer, svc)
    ensures NoEdgeSpace(d.initialAnswer)
  {
    var intents := IdentifyIntents(query, svc);
    var intentKeywords := GenerateKeywordsPerIntent(intents, svc);
    KeywordsOfIntents(intents, svc);
    var intentData := QueryForMultipleIntents(intentKeywords, svc);
    var initialAnswer := GenerateMultiIntentAnswer(query, intentData, svc);
    Draft(intents, intentKeywords, intentData, initialAnswer, ExtractKeywordsFromResponse(initialAnswer, svc))
  }

  lemma KeywordsOfIntents(intents: seq<string>, svc: Services)
    requires |intents| <= 1
    ensures Keys(GenerateKeywordsPerIntent(intents, svc)) == intents
  {
    DistinctShort(intents);
  }

  /**
   * The second pass: the union of the first intent's keywords and the draft's keywords,
   * re-queried as a single intent keyed by the query itself, and answered again.
   */
  function Refine(query: string, d: Draft, svc: Services): (r: Result<Answer, PipelineError>)
    ensures r.Failure? <==> d.intents == [] || Lookup(d.intentKeywords, d.intents[0]).None?
    ensures r.Failure? ==> r.error == if d.intents == [] then IndexError else KeyError
    ensures r.Success? ==>
      var first := Lookup(d.intentKeywords, d.intents[0]).value;
      && NoDuplicates(r.value.allKeywords)
      && ToSet(r.value.allKeywords) == ToSet(first) + ToSet(d.responseKeywords)
    ensures r.Success? ==> |r.value.intentData| == 1 && r.value.intentData[0].0 == query
    ensures r.Success? ==>
      r.value.intentData[0].1.metadataResults == svc.searchMetadata(Join(r.value.allKeywords, " "), TopK)
    ensures r.Success? ==> r.value.intentData == QueryForMultipleIntents([(query, r.value.allKeywords)], svc)
    ensures r.Success? ==> r.value.finalAnswer == GenerateMultiIntentAnswer(query, r.value.intentData, svc)
    ensures r.Success? ==> NoEdgeSpace(r.value.finalAnswer)
  {
    if |d.intents| == 0 then Failure(IndexError)
    else
      match Lookup(d.intentKeywords, d.intents[0])
      case None => Failure(KeyError)
      case Some(first) =>
        var allKeywords := Distinct(first + d.responseKeywords);
        assert ToSet(first + d.responseKeywords) == ToSet(first) + ToSet(d.responseKeywords);
        var entries := [(query, allKeywords)];
        var expanded := QueryForMultipleIntents(entries, svc);
        QueryForIntentsEntry(entries, [], svc, 0);
        assert IdsOf([]) + IdsBefore(expanded, 0) == {};
        KeptMatchesAllFresh(svc.searchMetadata(Join(allKeywords, " "), TopK), {});
        Success(Answer(GenerateMultiIntentAnswer(query, expanded, svc), expanded, allKeywords))
  }

  /** `get_answer(query)`: fails exactly when no intent is identified, and then with the index error. */
  function GetAnswer(query: string, svc: Services): (r: Result<Answer, PipelineError>)
    ensures r.Success? <==> !AllSpace(IntentCompletion(query, svc))
    ensures r.Failure? ==> r.error == IndexError
  {
    Refine(query, FirstPass(query, svc), svc)
  }

  /**
   * Refinement superset: the keywords of the second pass are exactly the keywords generated
   * for the identified intent together with those mined from the draft answer.
   */
  lemma RefinementKeywords(query: string, svc: Services)
    ensures
      var r := GetAnswer(query, svc);
      var d := FirstPass(query, svc);
      r.Success? ==>
        && (forall k :: k in KeywordsFor(Strip(IntentCompletion(query, svc)), svc) ==> k in r.value.allKeywords)
        && (forall k :: k in ExtractKeywordsFromResponse(d.initialAnswer, svc) ==> k in r.value.allKeywords)
        && (forall k :: k in r.value.allKeywords ==>
              k in KeywordsFor(Strip(IntentCompletion(query, svc)), svc)
              || k in ExtractKeywordsFromResponse(d.initialAnswer, svc))
  {
    var r := GetAnswer(query, svc);
    var d := FirstPass(query, svc);
    if r.Success? {
      var first := Lookup(d.intentKeywords, d.intents[0]).value;
      assert first == KeywordsFor(Strip(IntentCompletion(query, svc)), svc);
      var all := r.value.allKeywords;
      assert ToSet(all) == ToSet(first) + ToSet(d.responseKeywords);
      forall k | k in first
        ensures k in all
      {
        assert k in ToSet(first);
      }
      forall k | k in d.responseKeywords
        ensures k in all
      {
        assert k in ToSet(d.responseKeywords);
      }
      forall k | k in all
        ensures k in first || k in d.responseKeywords
      {
        assert k in ToSet(all);
      }
    }
  }
}

=== FILE: retrieval.dfy ===
/**
 * Retrieval for a sequence of intents: each intent's keywords are joined with spaces
 * and sent to the metadata index and to the content index. Metadata matches whose id
 * was already kept for an earlier intent are dropped (first intent wins); the content
 * matches are rendered into one context string.
 */
module Retrieval {
  import opened Text
  import opened Seqs
  import opened Dict
  import opened Externals

  /** What is recorded for one intent: its new metadata matches and its content context. */
  datatype IntentResult = IntentResult(metadataResults: seq<Match>, pineconeContext: string)

  /** `metadata.get(key, default)`. */
  function Get(metadata: map<string, string>, key: string, default: string): string {
    if key in metadata then metadata[key] else default
  }

  /**
   * The text contributed by one content match: its chunk text when it has one, otherwise
   * "Content from " followed by its file name, or by "unknown file" when that is missing too.
   */
  function ContentPiece(m: Match): (r: string)
    ensures "chunk_text" in m.metadata ==> r == m.metadata["chunk_text"]
    ensures "chunk_text" !in m.metadata ==> "Content from " <= r && r[|"Content from "|..] == Get(m.metadata, "file_name", "unknown file")
  {
    if "chunk_text" in m.metadata then m.metadata["chunk_text"]
    else
      var name := Get(m.metadata, "file_name", "unknown file");
      assert ("Content from " + name)[|"Content from "|..] == name;
      "Content from " + name
  }

  function Pieces(ms: seq<Match>): (ps: seq<string>)
    ensures |ps| == |ms|
    ensures forall i :: 0 <= i < |ms| ==> ps[i] == ContentPiece(ms[i])
  {
    seq(|ms|, i requires 0 <= i < |ms| => ContentPiece(ms[i]))
  }

  /**
   * The content context of a list of content matches: their pieces joined by single spaces,
   * so it is empty for no match and starts with the first match's piece.
   */
  function ContentContext(ms: seq<Match>): (r: string)
    ensures ms == [] ==> r == ""
    ensures |ms| >= 1 ==> ContentPiece(ms[0]) <= r
  {
    Join(Pieces(ms), " ")
  }

  /** `query_pinecone(query, index_content)`: collects one piece per match, then joins them. */
  method QueryPinecone(query: string, svc: Services) returns (context: string)
    ensures context == ContentContext(svc.searchContent(query, TopK))
  {
    var matches := svc.searchContent(query, TopK);
    var contexts: seq<string> := [];
    var i := 0;
    while i < |matches|
      invariant 0 <= i <= |matches|
      invariant contexts == Pieces(matches[..i])
    {
      contexts := contexts + [ContentPiece(matches[i])];
      i := i + 1;
    }
    assert matches[..i] == matches;
    context := Join(contexts, " ");
  }

  lemma ContentContextEmpty()
    ensures ContentContext([]) == ""
  {
  }

  /** Each further match adds a single space and its piece at the end of the context. */
  lemma ContentContextSnoc(ms: seq<Match>, m: Match)
    ensures ContentContext(ms + [m]) ==
      if |ms| == 0 then ContentPiece(m) else ContentContext(ms) + " " + ContentPiece(m)
  {
    assert Pieces(ms + [m]) == Pieces(ms) + [ContentPiece(m)];
    if |ms| > 0 {
      JoinSnoc(Pieces(ms), ContentPiece(m), " ");
    }
  }

  /** When no piece contains a space, splitting the context on spaces recovers the pieces one per match, in match order. */
  lemma ContentContextPieces(ms: seq<Match>)
    requires |ms| >= 1
    requires forall i :: 0 <= i < |ms| ==> ' ' !in ContentPiece(ms[i])
    ensures Split(ContentContext(ms), ' ') == Pieces(ms)
  {
    SplitJoin(Pieces(ms), ' ');
  }

  function IdsOf(ms: seq<Match>): set<string> {
    set m | m in ms :: m.id
  }

  /** The metadata matches kept for one intent: the raw matches, in order, minus those whose id is in `seen`. */
  function KeptMatches(raw: seq<Match>, seen: set<string>): (kept: seq<Match>)
    ensures IdsOf(kept) !! seen
    decreases |raw|
  {
    if |raw| == 0 then []
    else
      var rest := KeptMatches(raw[1..], seen);
      if raw[0].id in seen then rest
      else
        assert IdsOf([raw[0]] + rest) == {raw[0].id} + IdsOf(rest);
        [raw[0]] + rest
  }

  /**
   * Filtering keeps order and drops a match only for a seen id: the kept matches are a
   * subsequence of the raw ones, and every match with an unseen id stays, as often as it occurs.
   */
  lemma {:induction false} KeptMatchesFilter(raw: seq<Match>, seen: set<string>)
    ensures IsSubsequence(KeptMatches(raw, seen), raw)
    ensures forall m :: multiset(KeptMatches(raw, seen))[m] == if m.id in seen then 0 else multiset(raw)[m]
    decreases |raw|
  {
    if |raw| > 0 {
      var kept := KeptMatches(raw, seen);
      var rest := KeptMatches(raw[1..], seen);
      KeptMatchesFilter(raw[1..], seen);
      assert raw == [raw[0]] + raw[1..];
      if raw[0].id !in seen {
        assert kept[1..] == rest;
      }
    }
  }

  /** When no raw match has an id seen before, nothing is dropped, not even repeats within the list. */
  lemma {:induction false} KeptMatchesAllFresh(raw: seq<Match>, seen: set<string>)
    requires IdsOf(raw) !! seen
    ensures KeptMatches(raw, seen) == raw
    decreases |raw|
  {
    if |raw| > 0 {
      assert IdsOf(raw[1..]) <= IdsOf(raw);
      KeptMatchesAllFresh(raw[1..], seen);
      assert raw[0] in raw;
    }
  }

  /**
   * The loop of `query_for_multiple_intents` from some point on: `earlier` holds the
   * metadata matches kept so far, and each entry gets the raw matches minus those.
   */
  function QueryForIntents(entries: seq<(string, seq<string>)>, earlier: seq<Match>, svc: Services)
    : (r: seq<(string, IntentResult)>)
    ensures |r| == |entries|
    ensures forall i :: 0 <= i < |r| ==> r[i].0 == entries[i].0
    ensures forall i :: 0 <= i < |r| ==> IdsOf(r[i].1.metadataResults) !! IdsOf(earlier)
    decreases |entries|
  {
    if |entries| == 0 then []
    else
      var q := Join(entries[0].1, " ");
      var kept := KeptMatches(svc.searchMetadata(q, TopK), IdsOf(earlier));
      var rest := QueryForIntents(entries[1..], earlier + kept, svc);
      assert IdsOf(earlier + kept) == IdsOf(earlier) + IdsOf(kept);
      [(entries[0].0, IntentResult(kept, ContentContext(svc.searchContent(q, TopK))))] + rest
  }

  /** `query_for_multiple_intents(intent_keywords)`. */
  function QueryForMultipleIntents(intentKeywords: Dict<string, seq<string>>, svc: Services)
    : (r: seq<(string, IntentResult)>)
    ensures Keys(r) == Keys(intentKeywords)
  {
    QueryForIntents(intentKeywords, [], svc)
  }

  /** The ids of the metadata matches kept for the first `i` entries. */
  function IdsBefore(r: seq<(string, IntentResult)>, i: nat): set<string>
    requires i <= |r|
    decreases i
  {
    if i == 0 then {} else IdsOf(r[0].1.metadataResults) + IdsBefore(r[1..], i - 1)
  }

  lemma IdsOfAppend(a: seq<Match>, b: seq<Match>)
    ensures IdsOf(a + b) == IdsOf(a) + IdsOf(b)
  {
  }

  /** One step of the loop: the first entry keeps its fresh matches, and the rest runs with them added to `earlier`. */
  lemma QueryForIntentsStep(entries: seq<(string, seq<string>)>, earlier: seq<Match>, svc: Services)
    requires |entries| > 0
    ensures
      var r := QueryForIntents(entries, earlier, svc);
      var q := Join(entries[0].1, " ");
      var kept := KeptMatches(svc.searchMetadata(q, TopK), IdsOf(earlier));
      && r[0].1 == IntentResult(kept, ContentContext(svc.searchContent(q, TopK)))
      && r[1..] == QueryForIntents(entries[1..], earlier + kept, svc)
  {
  }

  /**
   * Entry `i` holds exactly the raw metadata matches for its joined keywords minus the ids
   * kept before it, and the content context of its content matches.
   */
  lemma {:induction false} QueryForIntentsEntry(
    entries: seq<(string, seq<string>)>, earlier: seq<Match>, svc: Services, i: nat)
    requires i < |entries|
    ensures
      var r := QueryForIntents(entries, earlier, svc);
      var q := Join(entries[i].1, " ");
      r[i].1 == IntentResult(
        KeptMatches(svc.searchMetadata(q, TopK), IdsOf(earlier) + IdsBefore(r, i)),
        ContentContext(svc.searchContent(q, TopK)))
    decreases i
  {
    var r := QueryForIntents(entries, earlier, svc);
    var q := Join(entries[0].1, " ");
    var kept := KeptMatches(svc.searchMetadata(q, TopK), IdsOf(earlier));
    QueryForIntentsStep(entries, earlier, svc);
    if i == 0 {
      assert IdsOf(earlier) + IdsBefore(r, 0) == IdsOf(earlier);
    } else {
      var rest := QueryForIntents(entries[1..], earlier + kept, svc);
      assert entries[i] == entries[1..][i - 1];
      QueryForIntentsEntry(entries[1..], earlier + kept, svc, i - 1);
      var seenRest := IdsOf(earlier + kept) + IdsBefore(rest, i - 1);
      var seen := IdsOf(earlier) + IdsBefore(r, i);
      assert seenRest == seen by {
        IdsOfAppend(earlier, kept);
        assert IdsBefore(r, i) == IdsOf(kept) + IdsBefore(rest, i - 1);
      }
      assert r[i] == rest[i - 1];
    }
  }

  /** No metadata match kept for an intent shares its id with a match kept for an earlier intent. */
  lemma CrossIntentDedup(entries: seq<(string, seq<string>)>, earlier: seq<Match>, svc: Services)
    ensures
      var r := QueryForIntents(entries, earlier, svc);
      forall i, j :: 0 <= i < j < |r| ==> IdsOf(r[i].1.metadataResults) !! IdsOf(r[j].1.metadataResults)
  {
    var r := QueryForIntents(entries, earlier, svc);
    forall i, j | 0 <= i < j < |r|
      ensures IdsOf(r[i].1.metadataResults) !! IdsOf(r[j].1.metadataResults)
    {
      QueryForIntentsEntry(entries, earlier, svc, j);
      IdsBeforeIncludes(r, i, j);
    }
  }

  lemma {:induction false} IdsBeforeIncludes(r: seq<(string, IntentResult)>, i: nat, j: nat)
    requires i < j <= |r|
    ensures IdsOf(r[i].1.metadataResults) <= IdsBefore(r, j)
    decreases i
  {
    if i > 0 {
      IdsBeforeIncludes(r[1..], i - 1, j - 1);
    }
  }

  /**
   * First intent wins: a metadata match retrieved for the first intent of a call is kept
   * for it, and its id is absent from every later intent's kept matches.
   */
  lemma FirstIntentWins(entries: seq<(string, seq<string>)>, svc: Services, m: Match)
    requires |entries| >= 1
    requires m in svc.searchMetadata(Join(entries[0].1, " "), TopK)
    ensures
      var r := QueryForIntents(entries, [], svc);
      && m in r[0].1.metadataResults
      && forall j :: 1 <= j < |r| ==> m.id !in IdsOf(r[j].1.metadataResults)
  {
    var r := QueryForIntents(entries, [], svc);
    var raw := svc.searchMetadata(Join(entries[0].1, " "), TopK);
    QueryForIntentsEntry(entries, [], svc, 0);
    assert IdsOf([]) + IdsBefore(r, 0) == {};
    KeptMatchesAllFresh(raw, {});
    CrossIntentDedup(entries, [], svc);
    assert m.id in IdsOf(r[0].1.metadataResults);
  }
}

=== FILE: seqs.dfy ===
/** Facts about sequences shared by the pipeline stages. */
module Seqs {

  function ToSet<T>(xs: seq<T>): set<T> {
    set x | x in xs
  }

  predicate NoDuplicates<T(==)>(xs: seq<T>) {
    forall i, j :: 0 <= i < j < |xs| ==> xs[i] != xs[j]
  }

  /** `a` can be obtained from `b` by deleting elements, keeping the order of the rest. */
  predicate IsSubsequence<T(==)>(a: seq<T>, b: seq<T>)
    decreases |b|
  {
    if |a| == 0 then true
    else if |b| == 0 then false
    else (a[0] == b[0] && IsSubsequence(a[1..], b[1..])) || IsSubsequence(a, b[1..])
  }

  /**
   * The elements of `xs` listed once each, in order of first occurrence.
   * This is one admissible listing of a Python `set(xs)`, whose iteration order the language leaves open.
   */
  function Distinct<T(==)>(xs: seq<T>): (r: seq<T>)
    ensures ToSet(r) == ToSet(xs)
    ensures NoDuplicates(r)
    decreases |xs|
  {
    if |xs| == 0 then []
    else
      var n := |xs| - 1;
      var p := Distinct(xs[..n]);
      assert xs == xs[..n] + [xs[n]];
      var x := xs[n];
      assert ToSet(xs) == ToSet(xs[..n]) + {x};
      if x in xs[..n] then p
      else
        assert x !in p;
        assert ToSet(p + [x]) == ToSet(p) + {x};
        p + [x]
  }

  /** A list with at most one element is already its own distinct listing. */
  lemma DistinctShort<T>(xs: seq<T>)
    requires |xs| <= 1
    ensures Distinct(xs) == xs
  {
    if |xs| == 1 {
      assert xs[..0] == [];
    }
  }
}

=== FILE: text.dfy ===
/**
 * The string operations the pipeline uses from Python's `str`:
 * `strip()` with no argument, `split(sep)` with a one-character separator,
 * and `sep.join(pieces)`.
 */
module Text {

  /** The characters for which Python's `str.isspace()` holds; `strip()` removes exactly these. */
  predicate IsSpace(c: char) {
    || c == ' '
    || ('\t' <= c <= '\r')
    || ('\U{1C}' <= c <= '\U{1F}')
    || c == '\U{85}' || c == '\U{A0}' || c == '\U{1680}'
    || ('\U{2000}' <= c <= '\U{200A}')
    || c == '\U{2028}' || c == '\U{2029}' || c == '\U{202F}' || c == '\U{205F}' || c == '\U{3000}'
  }

  predicate AllSpace(s: string) {
    forall i :: 0 <= i < |s| ==> IsSpace(s[i])
  }

  /** Neither the first nor the last character is whitespace: what `strip()` leaves behind. */
  predicate NoEdgeSpace(s: string) {
    |s| == 0 || (!IsSpace(s[0]) && !IsSpace(s[|s| - 1]))
  }

  /** The number of whitespace characters `s` starts with. */
  function LeadingSpace(s: string): (n: nat)
    ensures n <= |s|
    ensures forall i :: 0 <= i < n ==> IsSpace(s[i])
    ensures n == |s| || !IsSpace(s[n])
    decreases |s|
  {
    if |s| > 0 && IsSpace(s[0]) then 1 + LeadingSpace(s[1..]) else 0
  }

  /** The length of `s` once its trailing whitespace is dropped. */
  function ContentEnd(s: string): (n: nat)
    ensures n <= |s|
    ensures forall i :: n <= i < |s| ==> IsSpace(s[i])
    ensures n == 0 || !IsSpace(s[n - 1])
    decreases |s|
  {
    if |s| > 0 && IsSpace(s[|s| - 1]) then ContentEnd(s[..|s| - 1]) else |s|
  }

  /** The leading whitespace run is determined by where the first other character sits. */
  lemma LeadingSpaceIs(s: string, n: nat)
    requires n <= |s|
    requires forall i :: 0 <= i < n ==> IsSpace(s[i])
    requires n == |s| || !IsSpace(s[n])
    ensures LeadingSpace(s) == n
  {
  }

  lemma ContentEndIs(s: string, n: nat)
    requires n <= |s|
    requires forall i :: n <= i < |s| ==> IsSpace(s[i])
    requires n == 0 || !IsSpace(s[n - 1])
    ensures ContentEnd(s) == n
  {
  }

  /** `s.lstrip()`. */
  function TrimLeft(s: string): string {
    s[LeadingSpace(s)..]
  }

  /** `s.rstrip()`. */
  function TrimRight(s: string): string {
    s[..ContentEnd(s)]
  }

  /** `s.strip()`: `s` without its leading and trailing whitespace. */
  function Strip(s: string): (r: string)
    ensures NoEdgeSpace(r)
    ensures |r| <= |s|
  {
    TrimRight(TrimLeft(s))
  }

  /** `s` is its `lstrip()` with a run of whitespace in front. */
  lemma TrimLeftParts(s: string) returns (a: string)
    ensures s == a + TrimLeft(s) && AllSpace(a)
  {
    a := s[..LeadingSpace(s)];
    assert s == a + s[LeadingSpace(s)..];
  }

  /** `s` is its `rstrip()` with a run of whitespace behind. */
  lemma TrimRightParts(s: string) returns (b: string)
    ensures s == TrimRight(s) + b && AllSpace(b)
  {
    b := s[ContentEnd(s)..];
    assert s == s[..ContentEnd(s)] + b;
  }

  /** `s` is its `strip()` with a run of whitespace on either side. */
  lemma StripParts(s: string) returns (a: string, b: string)
    ensures s == a + (Strip(s) + b)
    ensures AllSpace(a) && AllSpace(b)
  {
    a := TrimLeftParts(s);
    b := TrimRightParts(TrimLeft(s));
  }

  /** `strip()` returns the empty string exactly for blank texts. */
  lemma StripBlank(s: string)
    ensures Strip(s) == [] <==> AllSpace(s)
  {
    var a, b := StripParts(s);
    var r := Strip(s);
    if r == [] {
      assert s == a + b;
    } else {
      assert s[|a|] == r[0] && !IsSpace(r[0]);
    }
  }

  lemma TrimLeftSpacePrefix(a: string, t: string)
    requires AllSpace(a)
    ensures TrimLeft(a + t) == TrimLeft(t)
  {
    var n := LeadingSpace(t);
    LeadingSpaceIs(a + t, |a| + n);
    assert (a + t)[|a| + n..] == t[n..];
  }

  lemma TrimRightSpaceSuffix(t: string, b: string)
    requires AllSpace(b)
    ensures TrimRight(t + b) == TrimRight(t)
  {
    var n := ContentEnd(t);
    ContentEndIs(t + b, n);
    assert (t + b)[..n] == t[..n];
  }

  lemma TrimLeftAppend(x: string, b: string)
    requires !AllSpace(x)
    ensures TrimLeft(x + b) == TrimLeft(x) + b
  {
    var n := LeadingSpace(x);
    LeadingSpaceIs(x + b, n);
    assert (x + b)[n..] == x[n..] + b;
  }

  /**
   * `strip()` is fully determined by its contract: whatever sits between two runs of
   * whitespace and has no whitespace at its edges is what it returns.
   */
  lemma StripOfFramed(a: string, r: string, b: string)
    requires AllSpace(a) && AllSpace(b) && NoEdgeSpace(r)
    ensures Strip(a + (r + b)) == r
  {
    TrimLeftSpacePrefix(a, r + b);
    if r == [] {
      assert r + b == b + [];
      TrimLeftSpacePrefix(b, []);
    } else {
      assert TrimLeft(r + b) == r + b;
      TrimRightSpaceSuffix(r, b);
    }
  }

  /** Texts without edge whitespace are left alone by stripping. */
  lemma StripNoEdge(s: string)
    requires NoEdgeSpace(s)
    ensures Strip(s) == s
  {
    assert [] + (s + []) == s;
    StripOfFramed([], s, []);
  }

  lemma StripIdempotent(s: string)
    ensures Strip(Strip(s)) == Strip(s)
  {
    StripNoEdge(Strip(s));
  }

  /** Whitespace in front of a text does not change what `strip()` returns. */
  lemma StripSpacePrefix(a: string, x: string)
    requires AllSpace(a)
    ensures Strip(a + x) == Strip(x)
  {
    TrimLeftSpacePrefix(a, x);
  }

  /** Whitespace after a text does not change what `strip()` returns. */
  lemma StripSpaceSuffix(x: string, b: string)
    requires AllSpace(b)
    ensures Strip(x + b) == Strip(x)
  {
    if AllSpace(x) {
      TrimLeftSpacePrefix(x, b);
      TrimLeftSpacePrefix(b, []);
      assert b + [] == b;
      assert x + [] == x;
      TrimLeftSpacePrefix(x, []);
    } else {
      TrimLeftAppend(x, b);
      TrimRightSpaceSuffix(TrimLeft(x), b);
    }
  }

  lemma StripSpaceAround(x: string, r: string, y: string)
    requires AllSpace(x) && AllSpace(y)
    ensures Strip(x + r + y) == Strip(r)
  {
    assert x + r + y == x + (r + y);
    StripSpacePrefix(x, r + y);
    StripSpaceSuffix(r, y);
  }

  lemma SpaceFree(a: string, c: char)
    requires AllSpace(a) && !IsSpace(c)
    ensures c !in a
  {
  }

  /** Stripping only removes characters, so it introduces none. */
  lemma StripSubstring(s: string, c: char)
    requires c !in s
    ensures c !in Strip(s)
  {
    var a, b := StripParts(s);
  }

  /** The number of occurrences of `c` in `s`. */
  function Count(s: string, c: char): nat
    decreases |s|
  {
    if |s| == 0 then 0 else (if s[0] == c then 1 else 0) + Count(s[1..], c)
  }

  lemma {:induction false} CountAppend(s: string, t: string, c: char)
    ensures Count(s + t, c) == Count(s, c) + Count(t, c)
    decreases |s|
  {
    if |s| == 0 {
      assert s + t == t;
    } else {
      assert (s + t)[1..] == s[1..] + t;
      CountAppend(s[1..], t, c);
    }
  }

  lemma {:induction false} CountAbsent(s: string, c: char)
    requires c !in s
    ensures Count(s, c) == 0
    decreases |s|
  {
    if |s| > 0 {
      assert c !in s[1..];
      CountAbsent(s[1..], c);
    }
  }

  /** Stripping whitespace never removes a non-whitespace character, so it keeps every occurrence of one. */
  lemma StripKeepsCount(s: string, c: char)
    requires !IsSpace(c)
    ensures Count(Strip(s), c) == Count(s, c)
  {
    var a, b := StripParts(s);
    var r := Strip(s);
    SpaceFree(a, c);
    SpaceFree(b, c);
    CountAbsent(a, c);
    CountAbsent(b, c);
    CountAppend(r, b, c);
    CountAppend(a, r + b, c);
  }

  /** `s.split(sep)` for a one-character separator: one piece more than there are separators, none containing it. */
  function Split(s: string, sep: char): (r: seq<string>)
    ensures |r| == Count(s, sep) + 1
    ensures forall i :: 0 <= i < |r| ==> sep !in r[i]
    decreases |s|
  {
    if |s| == 0 then [""]
    else
      var rest := Split(s[1..], sep);
      if s[0] == sep then [""] + rest
      else [[s[0]] + rest[0]] + rest[1..]
  }

  /** `sep.join(xs)`. */
  function Join(xs: seq<string>, sep: string): (r: string)
    ensures |xs| >= 1 ==> xs[0] <= r
    decreases |xs|
  {
    if |xs| == 0 then ""
    else if |xs| == 1 then xs[0]
    else xs[0] + sep + Join(xs[1..], sep)
  }

  /** `s.endswith(t)`. */
  predicate EndsWith(s: string, t: string) {
    |t| <= |s| && s[|s| - |t|..] == t
  }

  /** A join of no pieces is empty; otherwise it ends with the last piece. */
  lemma {:induction false} JoinEnds(xs: seq<string>, sep: string)
    ensures |xs| == 0 ==> Join(xs, sep) == ""
    ensures |xs| >= 1 ==> EndsWith(Join(xs, sep), xs[|xs| - 1])
    decreases |xs|
  {
    if |xs| >= 2 {
      var rest := Join(xs[1..], sep);
      JoinEnds(xs[1..], sep);
      assert xs[|xs| - 1] == xs[1..][|xs| - 2];
      assert Join(xs, sep) == xs[0] + sep + rest;
      assert (xs[0] + sep + rest)[|xs[0] + sep|..] == rest;
    }
  }

  /** Joining the pieces of a split with the separator gives back the original text. */
  lemma {:induction false} JoinSplit(s: string, sep: char)
    ensures Join(Split(s, sep), [sep]) == s
    decreases |s|
  {
    if |s| > 0 {
      var rest := Split(s[1..], sep);
      JoinSplit(s[1..], sep);
      if s[0] == sep {
        assert ([""] + rest)[1..] == rest;
      } else {
        var r := Split(s, sep);
        if |rest| == 1 {
          assert r == [[s[0]] + rest[0]];
        } else {
          assert r[1..] == rest[1..];
          assert Join(rest, [sep]) == rest[0] + [sep] + Join(rest[1..], [sep]);
        }
      }
    }
  }

  /** A text whose split has a single piece is that piece. */
  lemma SplitSingle(s: string, sep: char)
    requires |Split(s, sep)| == 1
    ensures Split(s, sep) == [s]
  {
    JoinSplit(s, sep);
  }

  lemma {:induction false} SplitNoSeparator(a: string, sep: char)
    requires sep !in a
    ensures Split(a, sep) == [a]
    decreases |a|
  {
    if |a| > 0 {
      assert sep !in a[1..];
      SplitNoSeparator(a[1..], sep);
      assert [a[0]] + a[1..] == a;
    }
  }

  lemma {:induction false} SplitFirstPiece(a: string, sep: char, t: string)
    requires sep !in a
    ensures Split(a + [sep] + t, sep) == [a] + Split(t, sep)
    decreases |a|
  {
    if |a| == 0 {
      assert a + [sep] + t == [sep] + t;
      assert ([sep] + t)[1..] == t;
    } else {
      assert (a + [sep] + t)[1..] == a[1..] + [sep] + t;
      assert sep !in a[1..];
      SplitFirstPiece(a[1..], sep, t);
      assert [a[0]] + a[1..] == a;
    }
  }

  /** Splitting a join of separator-free pieces gives back the pieces. */
  lemma {:induction false} SplitJoin(xs: seq<string>, sep: char)
    requires |xs| >= 1
    requires forall i :: 0 <= i < |xs| ==> sep !in xs[i]
    ensures Split(Join(xs, [sep]), sep) == xs
    decreases |xs|
  {
    if |xs| == 1 {
      SplitNoSeparator(xs[0], sep);
    } else {
      SplitJoin(xs[1..], sep);
      SplitFirstPiece(xs[0], sep, Join(xs[1..], [sep]));
      assert [xs[0]] + xs[1..] == xs;
    }
  }

  /** Appending one more piece to a join adds the separator and that piece at the end. */
  lemma {:induction false} JoinSnoc(xs: seq<string>, x: string, sep: string)
    requires |xs| >= 1
    ensures Join(xs + [x], sep) == Join(xs, sep) + sep + x
    decreases |xs|
  {
    if |xs| == 1 {
      assert xs + [x] == [xs[0], x];
    } else {
      assert (xs + [x])[1..] == xs[1..] + [x];
      JoinSnoc(xs[1..], x, sep);
    }
  }

  /** Pieces without edge whitespace, joined by a separator without edge whitespace, give such a text. */
  lemma {:induction false} JoinNoEdgeSpace(xs: seq<string>, sep: string)
    requires |sep| > 0 && !IsSpace(sep[0]) && !IsSpace(sep[|sep| - 1])
    requires forall i :: 0 <= i < |xs| ==> NoEdgeSpace(xs[i])
    ensures NoEdgeSpace(Join(xs, sep))
    decreases |xs|
  {
    if |xs| >= 2 {
      JoinNoEdgeSpace(xs[1..], sep);
      var rest := Join(xs[1..], sep);
      var j := xs[0] + sep + rest;
      assert j[0] == if |xs[0]| > 0 then xs[0][0] else sep[0];
      assert j[|j| - 1] == if |rest| > 0 then rest[|rest| - 1] else sep[|sep| - 1];
    }
  }

  /** Text without a separator in front of a split joins the first piece. */
  lemma {:induction false} SplitPrepend(a: string, t: string, sep: char)
    requires sep !in a
    ensures Split(a + t, sep) == [a + Split(t, sep)[0]] + Split(t, sep)[1..]
    decreases |a|
  {
    if |a| == 0 {
      assert a + t == t;
      assert a + Split(t, sep)[0] == Split(t, sep)[0];
      assert [Split(t, sep)[0]] + Split(t, sep)[1..] == Split(t, sep);
    } else {
      assert (a + t)[1..] == a[1..] + t;
      assert sep !in a[1..];
      SplitPrepend(a[1..], t, sep);
      assert [a[0]] + (a[1..] + Split(t, sep)[0]) == a + Split(t, sep)[0];
    }
  }

  /** Widening the last piece commutes with adding a piece in front. */
  lemma WidenLastCons(x: string, rest: seq<string>, w: seq<string>, b: string)
    requires |rest| >= 1
    requires w == rest[..|rest| - 1] + [rest[|rest| - 1] + b]
    ensures
      var p := [x] + rest;
      [x] + w == p[..|p| - 1] + [p[|p| - 1] + b]
  {
    var p := [x] + rest;
    assert p[..|p| - 1] == [x] + rest[..|rest| - 1];
  }

  /** Widening the last piece commutes with putting a character in front of the first piece. */
  lemma WidenLastGrow(c: char, rest: seq<string>, w: seq<string>, b: string)
    requires |rest| >= 1
    requires w == rest[..|rest| - 1] + [rest[|rest| - 1] + b]
    ensures
      var p := [[c] + rest[0]] + rest[1..];
      [[c] + w[0]] + w[1..] == p[..|p| - 1] + [p[|p| - 1] + b]
  {
    var m := |rest|;
    var p := [[c] + rest[0]] + rest[1..];
    if m == 1 {
      assert w == [rest[0] + b];
      assert [c] + (rest[0] + b) == ([c] + rest[0]) + b;
    } else {
      assert w[0] == rest[0];
      assert w[1..] == rest[1..m - 1] + [rest[m - 1] + b];
      assert p[..|p| - 1] == [[c] + rest[0]] + rest[1..m - 1];
    }
  }

  /** Text without a separator after a split joins the last piece. */
  lemma {:induction false} SplitAppend(t: string, b: string, sep: char)
    requires sep !in b
    ensures
      var p := Split(t, sep);
      Split(t + b, sep) == p[..|p| - 1] + [p[|p| - 1] + b]
    decreases |t|
  {
    if |t| == 0 {
      assert t + b == b;
      SplitNoSeparator(b, sep);
    } else {
      assert (t + b)[1..] == t[1..] + b;
      assert (t + b)[0] == t[0];
      SplitAppend(t[1..], b, sep);
      var rest := Split(t[1..], sep);
      var w := Split(t[1..] + b, sep);
      if t[0] == sep {
        WidenLastCons("", rest, w, b);
      } else {
        WidenLastGrow(t[0], rest, w, b);
      }
    }
  }

  /** Widening the last piece by `b` and then the first by `a` leaves the pieces in between alone. */
  lemma WidenEnds(p: seq<string>, q: seq<string>, c: seq<string>, a: string, b: string, i: nat)
    requires |p| >= 1 && i < |p|
    requires q == p[..|p| - 1] + [p[|p| - 1] + b]
    requires c == [a + q[0]] + q[1..]
    ensures c[i] == (if i == 0 then a else "") + p[i] + (if i == |p| - 1 then b else "")
  {
    var n := |p|;
    if i == 0 {
      if n == 1 {
        assert a + (p[0] + b) == a + p[0] + b;
      } else {
        assert a + p[0] == a + p[0] + "";
      }
    } else {
      assert c[i] == q[i];
      if i == n - 1 {
        assert "" + p[i] + b == p[i] + b;
      } else {
        assert "" + p[i] + "" == p[i];
      }
    }
  }

  /** Text without separators added around a split only widens its first and last pieces. */
  lemma SplitFramed(a: string, t: string, b: string, sep: char)
    requires sep !in a && sep !in b
    ensures
      var p := Split(t, sep);
      var c := Split(a + (t + b), sep);
      && |c| == |p|
      && forall i :: 0 <= i < |p| ==>
           c[i] == (if i == 0 then a else "") + p[i] + (if i == |p| - 1 then b else "")
  {
    var p := Split(t, sep);
    SplitAppend(t, b, sep);
    SplitPrepend(a, t + b, sep);
    var q := Split(t + b, sep);
    var c := Split(a + (t + b), sep);
    forall i | 0 <= i < |p|
      ensures c[i] == (if i == 0 then a else "") + p[i] + (if i == |p| - 1 then b else "")
    {
      WidenEnds(p, q, c, a, b, i);
    }
  }

  /** Every text of `xs`, stripped. */
  function StripEach(xs: seq<string>): (r: seq<string>)
    ensures |r| == |xs|
    ensures forall i :: 0 <= i < |xs| ==> r[i] == Strip(xs[i])
  {
    seq(|xs|, i requires 0 <= i < |xs| => Strip(xs[i]))
  }

  lemma StripEachNoEdge(xs: seq<string>)
    requires forall i :: 0 <= i < |xs| ==> NoEdgeSpace(xs[i])
    ensures StripEach(xs) == xs
  {
    forall i | 0 <= i < |xs|
      ensures StripEach(xs)[i] == xs[i]
    {
      StripNoEdge(xs[i]);
    }
  }

  /** Whitespace around a text, free of separators, does not change its stripped pieces. */
  lemma StripEachSplitFramed(a: string, t: string, b: string, sep: char)
    requires sep !in a && sep !in b
    requires AllSpace(a) && AllSpace(b)
    ensures StripEach(Split(a + (t + b), sep)) == StripEach(Split(t, sep))
  {
    SplitFramed(a, t, b, sep);
    var p := Split(t, sep);
    var c := Split(a + (t + b), sep);
    forall i | 0 <= i < |p|
      ensures StripEach(c)[i] == StripEach(p)[i]
    {
      StripSpaceAround(if i == 0 then a else "", p[i], if i == |p| - 1 then b else "");
    }
  }

  /** Stripping a text before splitting it and stripping every piece gives the same pieces as not stripping it first. */
  lemma StripThenSplit(s: string, sep: char)
    requires !IsSpace(sep)
    ensures StripEach(Split(Strip(s), sep)) == StripEach(Split(s, sep))
  {
    var a, b := StripParts(s);
    SpaceFree(a, sep);
    SpaceFree(b, sep);
    StripEachSplitFramed(a, Strip(s), b, sep);
  }
}

=== FILE: wrappers.dfy ===
/** Optional values, and results that may carry an error. */
module Wrappers {

  /** A value that may be absent, such as a key missing from a dictionary. */
  datatype Option<+T> = None | Some(value: T)

  /** The outcome of an operation that can raise: a value, or the error it raises. */
  datatype Result<+R, +E> = Success(value: R) | Failure(error: E)
}
